=== FILE: README.md ===
# War card game — a Dafny model

This project models the core of a small Kotlin simulation of the card game
War (`src/main/kotlin/War.kt`). A shuffled 52-card deck is split between two
players, each following its own hand-management policy. Each turn both
players draw a card and the higher rank takes both cards. A tie starts a
"war": each player lays one card face down and one face up, the higher
face-up card takes everything in the pot, and a further tie goes one level
deeper. A player who cannot play its part loses. The loop counts turns and
records the deepest war seen.

The model is written as pure functions over immutable values. Each
operation that the source performs on a mutable player returns the player
as it is afterwards.

Randomness is modelled as a stream of choices (`Shuffling.Rng`). It is
threaded through every operation that may shuffle. `Shuffling.Shuffle`
picks the next item by the next choice. The lemma
`ShuffleReachesEveryPermutation` shows that every rearrangement of n items
is the outcome of some stream of n choices. The lemma
`ShuffleUsesOneChoicePerItem` shows that a shuffle of n items reads exactly
n choices from a longer stream and leaves the rest untouched, and
`ShuffleLeavesRest` and `Cards.CreateDeck` state what each hands on: the
stream past the choices it used. So streams
for successive shuffles can be chosen one at a time and concatenated:
whatever permutations the real shuffles of a game pick, some stream makes
the model pick the same ones, and a property proved for every stream holds
for them.

Modules:

- `Shuffling` — the choice stream and the shuffle.
- `Cards` — suits, cards and the deck builder.
- `Players` — the two player policies: `Simple` is `PlayerSimple` and
  `WithDiscard` is `PlayerWithDiscard`.
- `WarRules` — the recursive tie-break.
- `Game` — the deal, one pass of the loop, and the loop itself.

Inside the loop the discard-policy player is the first player `p1` and the
simple player is the second player `p2`, as in the source's call
`runLoop(ty, dad)` against the signature `runLoop(p2, p1)`.

## Model

| member | source | states |
|---|---|---|
| Shuffling.Shuffle | src/main/kotlin/War.kt:19 | a shuffle returns a rearrangement of its input: the same length and the same multiset of items |
| Shuffling.ShuffleReachesEveryPermutation | src/main/kotlin/War.kt:19 | the shuffle is unconstrained: for every rearrangement p of s there is a stream of exactly \|s\| choices for which the shuffle of s yields exactly p |
| Shuffling.ShuffleLeavesRest | src/main/kotlin/War.kt:19 | a shuffle of n items hands on the stream past its first n choices, or an empty stream if it had fewer |
| Shuffling.ShuffleUsesOneChoicePerItem | src/main/kotlin/War.kt:19 | a shuffle of n items consumes exactly n choices: on n choices followed by any stream t it yields the same items as on the n choices alone and leaves t for the next shuffle |
| Cards.CreateDeck | src/main/kotlin/War.kt:11-21 | the deck holds 52 cards: every rank 2..14 in every suit exactly once and nothing else, so no card appears twice, whatever the shuffle does; the stream handed on is the given one past its first 52 choices (empty if it had fewer) |
| Cards.RankBlock | src/main/kotlin/War.kt:14-17 | one iteration of the deck loop adds four cards, exactly one of each suit at that rank |
| Cards.FullDeckIsDistinct | src/main/kotlin/War.kt:11-21 | a sequence holding each deck card exactly once holds no card at two positions |
| Players.HasLessThan | src/main/kotlin/War.kt:61-63 | true exactly when the player holds fewer than x cards in all, hand and discard pile counted together (lines 75-77 for the discard policy) |
| Players.Draw | src/main/kotlin/War.kt:78-84 | a draw removes exactly one card: the holdings before are the holdings after plus the drawn card, and the player keeps its policy (lines 64-66 for the simple policy) |
| Players.DrawTakesFrontOfHand | src/main/kotlin/War.kt:64-66 | with a non-empty hand, a draw takes the front card of the hand, leaves the rest of the hand and the discard pile in order, and consumes no randomness (line 83 for the discard policy) |
| Players.DrawRefillsFromDiscard | src/main/kotlin/War.kt:79-83 | with an empty hand and a non-empty pile, the pile is turned into the new hand in some order, the pile ends empty, and the card drawn is the front of the refilled hand |
| Players.AddWinnings | src/main/kotlin/War.kt:67-69 | winnings are added to the holdings and nothing else changes; the simple policy keeps its hand as a prefix and appends a rearrangement of the winnings; the discard policy keeps its hand and appends the winnings, in order, to the pile without using randomness (lines 85-87) |
| WarRules.DrawPair | src/main/kotlin/War.kt:138-141 | one player's share of a round removes exactly two cards, the face-down and the face-up card |
| WarRules.PlayRound | src/main/kotlin/War.kt:138-141 | a round takes two cards from each player, first player first, and nothing else |
| WarRules.RoundPot | src/main/kotlin/War.kt:143-146 | the cards a round adds to the pot are exactly the four cards drawn in that round |
| WarRules.RoundConserves | src/main/kotlin/War.kt:138-146 | a round moves cards from the players into the pot and loses or creates none |
| WarRules.War | src/main/kotlin/War.kt:130-155 | a war creates or loses no card; the pot only grows at its end, by four cards a round; each player gives up two cards a round. A war stopped by a guard returns its starting depth plus the rounds played (one more than its last round's depth): afterwards a player is short of two cards, the first player wins exactly when the second is short, and every round played was a tie. A war decided by a round returns that round's depth: the round's face-up cards, first and third of the pot's last four, differ in rank and the higher one wins, and every round before it was a tie |
| WarRules.WarTiesBeforeLast | src/main/kotlin/War.kt:148-153 | only a tie leads to another round: every round of a war that is not the deciding one (all of them when a guard stopped it) has face-up cards of equal rank, at pot positions 4j and 4j + 2 past the starting pot |
| WarRules.RoundTiedUnlessLast | src/main/kotlin/War.kt:148-153 | for any outcome whose earlier rounds are recorded as ties, each round but the deciding one (every round after a guard) has face-up cards of equal rank in the pot |
| WarRules.WarGuard | src/main/kotlin/War.kt:131-136 | a war plays no round exactly when either player holds fewer than two cards; then the pot, the depth and the players are returned unchanged, and the first player wins exactly when the second is the short one |
| WarRules.WarRoundOrder | src/main/kotlin/War.kt:143-146 | a round adds its cards in the order first player's face-up, first player's face-down, second player's face-up, second player's face-down |
| WarRules.WarRoundDecides | src/main/kotlin/War.kt:148-151 | different face-up ranks end the war after one round, at the current depth, won by the higher face-up card |
| WarRules.WarRoundTies | src/main/kotlin/War.kt:152-153 | equal face-up ranks send the war at least one level deeper |
| WarRules.GameRoundOrder | src/main/kotlin/War.kt:138-146 | for the game's pairing, a discard-policy first player with at least two cards in hand against a simple second player, the pot receives each player's second card then first card, first player first (draws per lines 64-66 and 83) |
| Game.Deal | src/main/kotlin/War.kt:28-31 | the deal keeps every card of the deck and gives 26 to each player: the simple player's hand is exactly the first half, the discard-policy player's hand exactly the second half with an empty pile, and the loop starts at turn 0 and depth 0 |
| Game.Open | src/main/kotlin/War.kt:103-105 | the first player draws, then the second player; each player's holdings lose exactly the card that player drew, one card each, both keep their policies, and the two cards move into the pot with no card lost |
| Game.Award | src/main/kotlin/War.kt:107-121 | the taker absorbs the pot by its own policy, so its new state and the stream left are those of `Players.AddWinnings` (shuffled onto the back of the hand, or appended in order to the pile, lines 68 and 86); its holdings grow by exactly the pot, the other player is unchanged, and the turn counter and deepest war are as given |
| Game.SettleByRank | src/main/kotlin/War.kt:107-110 | when the ranks differ, the owner of the higher card gains exactly the two drawn cards, first player's card first, placed as its `Players.AddWinnings` places them; the other player is left as the draw left it, and the deepest war is unchanged |
| Game.SettleByWar | src/main/kotlin/War.kt:111-121 | a tie is settled by a war started at depth 1 from the players after the opening draws, with the two drawn cards as its pot; the turn's pot, war-round count and taker are exactly the war's pot, rounds and winner; the winner's holdings after the war gain exactly that pot, placed as its `Players.AddWinnings` places them, and the loser is left as the war left it; the deepest war seen becomes the larger of its old value and the war's depth, so it is at least 1 and at least the number of war rounds |
| Game.Resolve | src/main/kotlin/War.kt:107-122 | settling an opened turn loses no card, the pot opens with the two drawn cards and grows four cards per war round, and the taker ends up holding all of it |
| Game.Turn | src/main/kotlin/War.kt:96-124 | the loop ends exactly when a player is empty, the second player checked first, with the turn count and deepest war so far; otherwise a turn keeps every card, counts one more turn, and never lowers the deepest war |
| Game.TurnWithoutTie | src/main/kotlin/War.kt:107-110 | a turn without a tie hands the two drawn cards, first player's first, to the owner of the higher card, who gains exactly those two, placed as its `Players.AddWinnings` places them; the other player is left as its draw left it, and the deepest war is unchanged |
| Game.TurnWithTie | src/main/kotlin/War.kt:111-121 | after a tie the turn is settled by the war started at depth 1 on the two drawn cards: its winner gains exactly its whole pot, placed as its `Players.AddWinnings` places them, the loser is left as the war left it, the war-round count is the war's, and the deepest war seen becomes the larger of its old value and the depth the war reached |
| Game.TurnSplitsPot | src/main/kotlin/War.kt:103-122 | the taker of the pot ends up holding all of it; each player put in half, so the taker gains half the pot in cards and the other loses as many |
| Game.OverMeansOneEmpty | src/main/kotlin/War.kt:96-101 | when the loop stops, the first player is the winner exactly when the second player holds nothing, and the winner holds every card |
| Game.RunLoop | src/main/kotlin/War.kt:91-126 | the loop runs Turn and nothing else: the states it passes through, returned as a trace from the initial state, are each produced by a played turn from the one before, and a finished game stops on the last of them, where Turn reports the end with the returned result; however many passes run, no card is created or lost, both players keep their policies and the turn counter counts the turns played; a finished game ends with the winner holding every card and the loser none |
| Game.LinkedSteps | src/main/kotlin/War.kt:91-126 | for any step function, a sequence of states linked by it can be read position by position: each state but the last takes a played step to the state after it |
| Game.TraceSteps | src/main/kotlin/War.kt:91-126 | in a trace of the loop, every state but the last plays a turn that leads to the state after it |
| Game.PlayGame | src/main/kotlin/War.kt:28-31 | one game from a fresh shuffled deck keeps all 52 deck cards between the two players, however long it runs |
| Game.ShortTieScenario | src/main/kotlin/War.kt:111-121 | a tie where the first player has no card left for a war: the war plays no round and is lost at depth 1, the second player takes both cards, and the next pass ends the game in the second player's favour after one turn |

## Left out

- `main`'s thousand games and its statistics and printing (lines 26-48) are
  left out. They only aggregate results and do I/O.
- The real random-number generator is left out. Kotlin's `shuffle` and
  `shuffled` become `Shuffling.Shuffle` driven by a choice stream. The
  stream stands for any source of randomness, and every permutation is
  reachable.
- Termination of a whole game is not modelled. Nothing in the source bounds
  the number of turns. `Game.RunLoop` takes a `fuel` bound on loop passes
  and returns `Unfinished` with the state reached when the bound runs out.
- The 32-bit width of the turn counter and depth is not modelled. They are
  unbounded naturals here. An overflow would need more than 2^31 turns.
- `@ExperimentalTime` and the `War` class wrapper are left out. Neither
  carries behaviour.
- Drawing from a player who holds no card throws in the source. It is
  excluded by `Players.Draw`'s precondition, because every caller in the
  source checks `hasLessThan` before drawing.
- Players.Draw: its contract states only that one card leaves the holdings.
  Which card leaves, per policy, is stated separately by
  `Players.DrawTakesFrontOfHand` and `Players.DrawRefillsFromDiscard`. This
  keeps the verification of its callers small.
- The depth a war returns is the depth of the call that returned it. A war
  decided by a round returns that round's depth. A war stopped by a guard
  returns one more than its last round's depth, or its starting depth if it
  played no round. So when a guard ends a war at depth d, only d - 1 rounds
  were played, and the pot holds 2 + 4(d - 1) cards rather than 2 + 4d. The model follows the code here;
  `WarRules.War` and `Game.TurnSplitsPot` state the pot size through the
  number of rounds played.
- A player that cheats and a three-card war do not appear in the code and
  are not modelled.

=== FILE: cards.dfy ===
/** Cards and the 52-card deck (src/main/kotlin/War.kt:5-21). */
module Cards {
  import opened Shuffling

  datatype Suit = Heart | Spade | Diamond | Club

  /** A card is a plain value: two cards are the same card when rank and
      suit agree. */
  datatype Card = Card(rank: int, suit: Suit)

  const LowRank := 2
  const HighRank := 14
  const DeckSize := 52

  /** The cards a deck is built from: ranks 2 (two) to 14 (ace) in every suit. */
  predicate InDeck(c: Card)
  {
    LowRank <= c.rank <= HighRank
  }

  /** Every card of the deck exactly once, and nothing else. */
  ghost predicate IsFullDeck(s: seq<Card>)
  {
    && |s| == DeckSize
    && forall c :: multiset(s)[c] == (if InDeck(c) then 1 else 0)
  }

  /** The four cards one iteration of the deck-building loop appends. */
  function RankBlock(rank: int): (r: seq<Card>)
    ensures |r| == 4
    ensures forall c :: multiset(r)[c] == (if c.rank == rank then 1 else 0)
  {
    var r := [Card(rank, Heart), Card(rank, Club), Card(rank, Spade), Card(rank, Diamond)];
    RankBlockCounts(rank, r);
    r
  }

  lemma RankBlockCounts(rank: int, r: seq<Card>)
    requires r == [Card(rank, Heart), Card(rank, Club), Card(rank, Spade), Card(rank, Diamond)]
    ensures forall c :: multiset(r)[c] == (if c.rank == rank then 1 else 0)
  {
    forall c: Card
      ensures multiset(r)[c] == (if c.rank == rank then 1 else 0)
    {
      match c.suit
      case Heart =>
      case Club =>
      case Spade =>
      case Diamond =>
    }
  }

  /** Builds the deck rank by rank in the source's order, then shuffles it
      with the given randomness. */
  method CreateDeck(rng: Rng) returns (deck: seq<Card>, rng': Rng)
    ensures IsFullDeck(deck)
    ensures forall j, k :: 0 <= j < k < |deck| ==> deck[j] != deck[k]
    ensures rng' == if DeckSize <= |rng| then rng[DeckSize..] else []
  {
    var built: seq<Card> := [];
    var i := LowRank;
    while i <= HighRank
      invariant LowRank <= i <= HighRank + 1
      invariant |built| == 4 * (i - LowRank)
      invariant forall c :: multiset(built)[c] == (if LowRank <= c.rank < i then 1 else 0)
    {
      built := built + RankBlock(i);
      i := i + 1;
    }
    var shuffled := Shuffle(built, rng);
    deck, rng' := shuffled.items, shuffled.rng;
    FullDeckIsDistinct(deck);
    ShuffleLeavesRest(built, rng);
  }

  /** A full deck holds no card twice. */
  lemma FullDeckIsDistinct(s: seq<Card>)
    requires IsFullDeck(s)
    ensures forall j, k :: 0 <= j < k < |s| ==> s[j] != s[k]
  {
    forall j, k | 0 <= j < k < |s|
      ensures s[j] != s[k]
    {
      RepeatedCardCountsTwice(s, j, k);
    }
  }

  lemma RepeatedCardCountsTwice(s: seq<Card>, j: nat, k: nat)
    requires j < k < |s|
    ensures s[j] == s[k] ==> multiset(s)[s[j]] >= 2
  {
    assert s == s[..j] + [s[j]] + s[j + 1..k] + [s[k]] + s[k + 1..];
  }
}

=== FILE: game.dfy ===
/**
 One game: the deal and the turn loop (src/main/kotlin/War.kt:29-31, 51,
 91-126). Inside the loop the discard-policy player is the first player
 `p1` and the simple player the second player `p2`; a result's
 `player1Win` refers to that first player.
 */
module Game {
  import opened Shuffling
  import opened Cards
  import opened Players
  import opened WarRules

  /** The record of a finished game: turns played, whether the first player
      won, and the deepest war seen. */
  datatype FinalResult = FinalResult(turns: nat, player1Win: bool, depth: nat)

  /** The loop's state between turns. */
  datatype State = State(p1: Player, p2: Player, rng: Rng, turns: nat, maxDepth: nat)

  /** What one pass of the loop does: either it ends the game, or it plays a
      turn whose pot, grown by the given number of war rounds, goes to one
      player. */
  datatype Step =
    | Over(result: FinalResult)
    | Played(state: State, pot: seq<Card>, warRounds: nat, player1Took: bool)

  /** A game that ended, with the state it ended in, or the state reached
      when the allowance of loop passes ran out. */
  datatype Outcome =
    | Finished(result: FinalResult, last: State)
    | Unfinished(state: State)

  /** Every card in either player's possession. */
  function Holdings(s: State): multiset<Card>
  {
    Held(s.p1) + Held(s.p2)
  }

  /** The deal: the first half of the deck becomes the simple player's hand,
      the second half the discard-policy player's hand, and the loop starts
      with no turns and no wars. */
  function Deal(deck: seq<Card>, rng: Rng): (s: State)
    requires |deck| == DeckSize
    ensures Holdings(s) == multiset(deck)
    ensures |Held(s.p1)| == 26 && |Held(s.p2)| == 26
    ensures s.p2 == Simple(deck[..26])
    ensures s.p1 == WithDiscard(deck[26..], [])
    ensures s.turns == 0 && s.maxDepth == 0
  {
    assert deck == deck[..26] + deck[26..];
    State(WithDiscard(deck[26..], []), Simple(deck[..26]), rng, 0, 0)
  }

  /** Hands the pot to one player and counts the turn. The taker absorbs
      the pot by its own policy, as AddWinnings describes, drawing on the
      stream; the other player is untouched. */
  function Award(p1: Player, p2: Player, pot: seq<Card>, warRounds: nat, player1Takes: bool, rng: Rng, turns: nat, maxDepth: nat): (r: Step)
    ensures r.Played? && r.pot == pot && r.warRounds == warRounds && r.player1Took == player1Takes
    ensures r.state.turns == turns && r.state.maxDepth == maxDepth
    ensures player1Takes ==> Held(r.state.p1) == Held(p1) + multiset(pot) && r.state.p2 == p2
    ensures !player1Takes ==> Held(r.state.p2) == Held(p2) + multiset(pot) && r.state.p1 == p1
    ensures player1Takes ==> r.state.p1 == AddWinnings(p1, pot, rng).player && r.state.rng == AddWinnings(p1, pot, rng).rng
    ensures !player1Takes ==> r.state.p2 == AddWinnings(p2, pot, rng).player && r.state.rng == AddWinnings(p2, pot, rng).rng
    ensures SamePolicy(p1, r.state.p1) && SamePolicy(p2, r.state.p2)
  {
    if player1Takes then
      var w := AddWinnings(p1, pot, rng);
      Played(State(w.player, p2, w.rng, turns, maxDepth), pot, warRounds, true)
    else
      var w := AddWinnings(p2, pot, rng);
      Played(State(p1, w.player, w.rng, turns, maxDepth), pot, warRounds, false)
  }

  /** The two cards that open a turn and the players after drawing them. */
  datatype Opening = Opening(p1Card: Card, p2Card: Card, p1: Player, p2: Player, rng: Rng)

  /** Each player draws one card, the first player first. */
  function Open(s: State): (o: Opening)
    requires !HasLessThan(s.p1, 1) && !HasLessThan(s.p2, 1)
    ensures Held(s.p1) == Held(o.p1) + multiset{o.p1Card} && Held(s.p2) == Held(o.p2) + multiset{o.p2Card}
    ensures Holdings(s) == Held(o.p1) + Held(o.p2) + multiset([o.p1Card, o.p2Card])
    ensures |Held(o.p1)| == |Held(s.p1)| - 1 && |Held(o.p2)| == |Held(s.p2)| - 1
    ensures SamePolicy(s.p1, o.p1) && SamePolicy(s.p2, o.p2)
  {
    var d1 := Draw(s.p1, s.rng);
    var d2 := Draw(s.p2, d1.rng);
    MoveToPot(Held(s.p1), Held(d1.player), multiset{d1.card},
              Held(s.p2), Held(d2.player), multiset{d2.card},
              multiset{}, multiset([d1.card, d2.card]));
    Opening(d1.card, d2.card, d1.player, d2.player, d2.rng)
  }

  /** What settling an opened turn promises: no card is lost, the pot opens
      with the two drawn cards and grows four cards a war round, each player
      put in half of it, and the taker ends up holding all of it. */
  ghost predicate SettlesPot(o: Opening, turns: nat, maxDepth: nat, r: Step)
  {
    && r.Played?
    && Held(o.p1) + Held(o.p2) + multiset([o.p1Card, o.p2Card]) == Holdings(r.state)
    && r.state.turns == turns && r.state.maxDepth >= maxDepth
    && SamePolicy(o.p1, r.state.p1) && SamePolicy(o.p2, r.state.p2)
    && [o.p1Card, o.p2Card] <= r.pot
    && |r.pot| == 2 + 4 * r.warRounds
    && (r.player1Took ==>
          multiset(r.pot) <= Held(r.state.p1) && 2 * |Held(r.state.p2)| == 2 * |Held(o.p2)| + 2 - |r.pot|)
    && (!r.player1Took ==>
          multiset(r.pot) <= Held(r.state.p2) && 2 * |Held(r.state.p1)| == 2 * |Held(o.p1)| + 2 - |r.pot|)
  }

  /** Different ranks: the higher card takes both. */
  function SettleByRank(o: Opening, turns: nat, maxDepth: nat): (r: Step)
    requires o.p1Card.rank != o.p2Card.rank
    ensures SettlesPot(o, turns, maxDepth, r)
    ensures r.pot == [o.p1Card, o.p2Card] && r.warRounds == 0
    ensures r.player1Took <==> o.p1Card.rank > o.p2Card.rank
    ensures r.player1Took ==> Held(r.state.p1) == Held(o.p1) + multiset(r.pot) && r.state.p2 == o.p2
    ensures !r.player1Took ==> Held(r.state.p2) == Held(o.p2) + multiset(r.pot) && r.state.p1 == o.p1
    ensures r.player1Took ==> r.state.p1 == AddWinnings(o.p1, r.pot, o.rng).player
    ensures !r.player1Took ==> r.state.p2 == AddWinnings(o.p2, r.pot, o.rng).player
    ensures r.state.maxDepth == maxDepth
  {
    Award(o.p1, o.p2, [o.p1Card, o.p2Card], 0, o.p1Card.rank > o.p2Card.rank, o.rng, turns, maxDepth)
  }

  /** What settling a tie by war promises: the war is started at depth 1
      from the players after the opening draws, with the two drawn cards as
      its pot; its winner absorbs exactly its whole pot by its own policy,
      as AddWinnings describes, and the loser keeps what it had when the war
      ended; and the deepest war seen becomes the
      larger of its old value and the depth the war reached, which is at
      least 1 and is the number of war rounds or one more. */
  ghost predicate SettledByWar(o: Opening, maxDepth: nat, r: Step)
  {
    var war := War(o.p1, o.p2, [o.p1Card, o.p2Card], 1, o.rng);
    && r.Played?
    && r.pot == war.result.winnings && r.warRounds == war.rounds
    && (r.player1Took <==> war.result.player1Win)
    && (r.player1Took ==> Held(r.state.p1) == Held(war.p1) + multiset(r.pot) && r.state.p2 == war.p2)
    && (!r.player1Took ==> Held(r.state.p2) == Held(war.p2) + multiset(r.pot) && r.state.p1 == war.p1)
    && (r.player1Took ==> r.state.p1 == AddWinnings(war.p1, r.pot, war.rng).player)
    && (!r.player1Took ==> r.state.p2 == AddWinnings(war.p2, r.pot, war.rng).player)
    && r.state.maxDepth == (if war.result.depth > maxDepth then war.result.depth else maxDepth)
    && r.state.maxDepth >= 1 && r.state.maxDepth >= r.warRounds
    && (r.state.maxDepth == maxDepth || r.state.maxDepth <= r.warRounds + 1)
  }

  /** Equal ranks: a war at depth 1 decides who takes the pot, and the
      deepest war seen so far is updated. */
  function SettleByWar(o: Opening, turns: nat, maxDepth: nat): (r: Step)
    ensures SettlesPot(o, turns, maxDepth, r)
    ensures SettledByWar(o, maxDepth, r)
  {
    var war := War(o.p1, o.p2, [o.p1Card, o.p2Card], 1, o.rng);
    var deepest := if war.result.depth > maxDepth then war.result.depth else maxDepth;
    WarSettles(o, turns, maxDepth, war);
    Award(war.p1, war.p2, war.result.winnings, war.rounds, war.result.player1Win, war.rng, turns, deepest)
  }

  /** Handing the pot of any war started on a tie to its winner settles the
      pot, and the deepest war seen stays within the bounds the war's
      depth allows. */
  lemma WarSettles(o: Opening, turns: nat, maxDepth: nat, war: WarOutcome)
    requires WarAccounts(o.p1, o.p2, [o.p1Card, o.p2Card], 1, war)
    ensures var deepest := if war.result.depth > maxDepth then war.result.depth else maxDepth;
            var r := Award(war.p1, war.p2, war.result.winnings, war.rounds, war.result.player1Win, war.rng, turns, deepest);
            && SettlesPot(o, turns, maxDepth, r)
            && deepest >= 1 && deepest >= war.rounds
            && (deepest == maxDepth || deepest <= war.rounds + 1)
  {
  }

  /** Settles an opened turn by rank, or by war on a tie. */
  function Resolve(o: Opening, turns: nat, maxDepth: nat): (r: Step)
    ensures SettlesPot(o, turns, maxDepth, r)
  {
    if o.p1Card.rank != o.p2Card.rank then SettleByRank(o, turns, maxDepth) else SettleByWar(o, turns, maxDepth)
  }

  /** One pass of the loop. The game ends when the second player holds no
      card (the first player wins) or else when the first holds none.
      Otherwise the turn is opened and resolved. */
  function Turn(s: State): (r: Step)
    ensures r.Over? <==> HasLessThan(s.p2, 1) || HasLessThan(s.p1, 1)
    ensures r.Over? ==> r.result == FinalResult(s.turns, HasLessThan(s.p2, 1), s.maxDepth)
    ensures r.Played? ==>
              && Holdings(r.state) == Holdings(s)
              && r.state.turns == s.turns + 1
              && r.state.maxDepth >= s.maxDepth
              && SamePolicy(s.p1, r.state.p1) && SamePolicy(s.p2, r.state.p2)
    ensures r.Played? ==> SettlesPot(Open(s), s.turns + 1, s.maxDepth, r)
  {
    if HasLessThan(s.p2, 1) then
      Over(FinalResult(s.turns, true, s.maxDepth))
    else if HasLessThan(s.p1, 1) then
      Over(FinalResult(s.turns, false, s.maxDepth))
    else
      Resolve(Open(s), s.turns + 1, s.maxDepth)
  }

  /** A turn without a tie gives exactly the two drawn cards, first player's
      card first, to the owner of the higher card; the other player keeps
      what it had after the draw, and the deepest war seen is unchanged. */
  lemma TurnWithoutTie(s: State)
    requires !HasLessThan(s.p1, 1) && !HasLessThan(s.p2, 1)
    requires Open(s).p1Card.rank != Open(s).p2Card.rank
    ensures var o := Open(s);
            var r := Turn(s);
            && r.Played?
            && r.pot == [o.p1Card, o.p2Card]
            && (r.player1Took <==> o.p1Card.rank > o.p2Card.rank)
            && (r.player1Took ==> Held(r.state.p1) == Held(o.p1) + multiset(r.pot) && r.state.p2 == o.p2)
            && (!r.player1Took ==> Held(r.state.p2) == Held(o.p2) + multiset(r.pot) && r.state.p1 == o.p1)
            && (r.player1Took ==> r.state.p1 == AddWinnings(o.p1, r.pot, o.rng).player)
            && (!r.player1Took ==> r.state.p2 == AddWinnings(o.p2, r.pot, o.rng).player)
            && r.state.maxDepth == s.maxDepth
  {
  }

  /** A tie is settled by a war as SettledByWar describes: the war's
      winner gains exactly the war's whole pot, the loser keeps what it had
      when the war ended, and the deepest war seen becomes the larger of its
      old value and the depth the war reached. */
  lemma TurnWithTie(s: State)
    requires !HasLessThan(s.p1, 1) && !HasLessThan(s.p2, 1)
    requires Open(s).p1Card.rank == Open(s).p2Card.rank
    ensures SettledByWar(Open(s), s.maxDepth, Turn(s))
  {
  }

  /** Whoever takes the pot ends up holding all of it, and each player put in
      half of it: the taker gains half the pot in cards and the other player
      loses as many. */
  lemma TurnSplitsPot(s: State)
    requires Turn(s).Played?
    ensures var o := Open(s);
            var r := Turn(s);
            && [o.p1Card, o.p2Card] <= r.pot
            && |r.pot| == 2 + 4 * r.warRounds
            && (r.player1Took ==>
                  && multiset(r.pot) <= Held(r.state.p1)
                  && 2 * |Held(r.state.p1)| == 2 * |Held(s.p1)| + |r.pot|
                  && 2 * |Held(r.state.p2)| == 2 * |Held(s.p2)| - |r.pot|)
            && (!r.player1Took ==>
                  && multiset(r.pot) <= Held(r.state.p2)
                  && 2 * |Held(r.state.p2)| == 2 * |Held(s.p2)| + |r.pot|
                  && 2 * |Held(r.state.p1)| == 2 * |Held(s.p1)| - |r.pot|)
  {
  }

  /** Consecutive states linked by a step function: each state but the
      last takes a step that is played and leads to the next one. */
  predicate Linked(next: State -> Step, trace: seq<State>)
    decreases |trace|
  {
    || |trace| <= 1
    || (&& Linked(next, trace[..|trace| - 1])
        && next(trace[|trace| - 2]).Played?
        && next(trace[|trace| - 2]).state == trace[|trace| - 1])
  }

  /** Consecutive states of the loop: each state but the last plays a turn
      that leads to the next one. */
  predicate IsTrace(trace: seq<State>)
  {
    Linked(Turn, trace)
  }

  /** A linked sequence can be read position by position. */
  lemma {:induction false} LinkedSteps(next: State -> Step, trace: seq<State>, i: nat)
    requires Linked(next, trace) && i < |trace| - 1
    ensures next(trace[i]).Played? && next(trace[i]).state == trace[i + 1]
    decreases |trace|
  {
    var front := trace[..|trace| - 1];
    if i < |trace| - 2 {
      LinkedSteps(next, front, i);
      assert front[i] == trace[i] && front[i + 1] == trace[i + 1];
    }
  }

  /** A trace can be read position by position: the turn played from any
      state but the last leads to the state after it. */
  lemma TraceSteps(trace: seq<State>, i: nat)
    requires IsTrace(trace) && i < |trace| - 1
    ensures Turn(trace[i]).Played? && Turn(trace[i]).state == trace[i + 1]
  {
    LinkedSteps(Turn, trace, i);
  }

  /** Playing one more turn from the last state extends a trace. */
  lemma ExtendTrace(trace: seq<State>, s: State)
    requires |trace| > 0 && IsTrace(trace) && trace[|trace| - 1] == s
    requires Turn(s).Played?
    ensures IsTrace(trace + [Turn(s).state])
  {
    LinkedExtend(Turn, trace);
  }

  /** A step played from the last state extends a linked sequence. */
  lemma LinkedExtend(next: State -> Step, trace: seq<State>)
    requires |trace| > 0 && Linked(next, trace)
    requires next(trace[|trace| - 1]).Played?
    ensures Linked(next, trace + [next(trace[|trace| - 1]).state])
  {
    var longer := trace + [next(trace[|trace| - 1]).state];
    assert longer[..|longer| - 1] == trace;
    assert longer[|longer| - 2] == trace[|trace| - 1];
  }

  /** A trace the loop can have produced from the players p1 and p2 and the
      stream rng: it starts from the initial state and is linked by Turn,
      and its last state still holds every card, has counted one turn per
      step, and keeps both players' policies. */
  ghost predicate LoopTrace(p1: Player, p2: Player, rng: Rng, trace: seq<State>)
  {
    && |trace| > 0
    && trace[0] == State(p1, p2, rng, 0, 0)
    && IsTrace(trace)
    && Holdings(trace[|trace| - 1]) == Held(p1) + Held(p2)
    && trace[|trace| - 1].turns == |trace| - 1
    && SamePolicy(p1, trace[|trace| - 1].p1) && SamePolicy(p2, trace[|trace| - 1].p2)
  }

  /** A pass that plays a turn keeps a loop trace one of. */
  lemma LoopTraceStep(p1: Player, p2: Player, rng: Rng, trace: seq<State>)
    requires LoopTrace(p1, p2, rng, trace)
    requires Turn(trace[|trace| - 1]).Played?
    ensures LoopTrace(p1, p2, rng, trace + [Turn(trace[|trace| - 1]).state])
  {
    var s := trace[|trace| - 1];
    ExtendTrace(trace, s);
    var longer := trace + [Turn(s).state];
    assert longer[0] == trace[0] && longer[|longer| - 1] == Turn(s).state;
  }

  /** The loop itself, with the simple player p2 passed first as in the
      source. Turns and the deepest war start at zero; at most fuel passes
      are made. The states it goes through, returned as trace, are linked by
      Turn, and a finished game stops on the state where Turn reports the
      end. However many turns are played, no card is created or lost, both
      players keep their policies and the turn counter counts exactly the
      turns played. A finished game ends with the winner holding every card
      and the loser none, and the first player wins exactly when the second
      is the one left empty. */
  method RunLoop(p2: Player, p1: Player, rng: Rng, fuel: nat) returns (outcome: Outcome, ghost trace: seq<State>)
    ensures outcome.Unfinished? ==>
              && Holdings(outcome.state) == Held(p1) + Held(p2)
              && outcome.state.turns == fuel
              && SamePolicy(p1, outcome.state.p1) && SamePolicy(p2, outcome.state.p2)
    ensures outcome.Finished? ==>
              && Turn(outcome.last) == Over(outcome.result)
              && Holdings(outcome.last) == Held(p1) + Held(p2)
              && outcome.result.turns == outcome.last.turns < fuel
              && outcome.result.depth == outcome.last.maxDepth
              && SamePolicy(p1, outcome.last.p1) && SamePolicy(p2, outcome.last.p2)
              && (outcome.result.player1Win <==> Held(outcome.last.p2) == multiset{})
              && (outcome.result.player1Win ==> Held(outcome.last.p1) == Held(p1) + Held(p2))
              && (!outcome.result.player1Win ==>
                    Held(outcome.last.p1) == multiset{} && Held(outcome.last.p2) == Held(p1) + Held(p2))
    ensures |trace| > 0 && trace[0] == State(p1, p2, rng, 0, 0) && IsTrace(trace)
    ensures outcome.Unfinished? ==> outcome.state == trace[|trace| - 1] && |trace| == fuel + 1
    ensures outcome.Finished? ==> outcome.last == trace[|trace| - 1] && |trace| == outcome.result.turns + 1
  {
    var s := State(p1, p2, rng, 0, 0);
    trace := [s];
    var left: nat := fuel;
    while left > 0
      invariant left <= fuel && |trace| == fuel - left + 1
      invariant LoopTrace(p1, p2, rng, trace) && trace[|trace| - 1] == s
      decreases left
    {
      var step := Turn(s);
      if step.Over? {
        OverMeansOneEmpty(s);
        return Finished(step.result, s), trace;
      }
      LoopTraceStep(p1, p2, rng, trace);
      trace := trace + [step.state];
      s := step.state;
      left := left - 1;
    }
    return Unfinished(s), trace;
  }

  /** The loop stops only when a player has run out of cards; the first
      player is declared the winner exactly when the second is the empty one,
      and otherwise it is the first player who is empty. */
  lemma OverMeansOneEmpty(s: State)
    requires Turn(s).Over?
    ensures Turn(s).result.turns == s.turns && Turn(s).result.depth == s.maxDepth
    ensures Turn(s).result.player1Win <==> Held(s.p2) == multiset{}
    ensures Turn(s).result.player1Win ==> Held(s.p1) == Holdings(s)
    ensures !Turn(s).result.player1Win ==> Held(s.p1) == multiset{} && Held(s.p2) == Holdings(s)
  {
  }

  /** One game as the source plays it: a shuffled full deck is dealt, the
      simple player taking the first half, and the loop runs on it. All 52
      cards stay between the two players, whatever the shuffles do and
      however long the game runs. */
  method PlayGame(rng: Rng, fuel: nat) returns (deck: seq<Card>, outcome: Outcome)
    ensures IsFullDeck(deck)
    ensures outcome.Unfinished? ==> Holdings(outcome.state) == multiset(deck)
    ensures outcome.Finished? ==> Holdings(outcome.last) == multiset(deck)
  {
    var rest;
    deck, rest := CreateDeck(rng);
    var start := Deal(deck, rest);
    ghost var trace;
    outcome, trace := RunLoop(start.p2, start.p1, start.rng, fuel);
  }

  /** A tie that leaves the first player without cards for a war: that
      player's one card and the second player's equal card form the pot,
      the war is lost at depth 1 without a round, the second player takes
      both cards, and the next pass ends the game in the second player's
      favour after one turn. */
  lemma ShortTieScenario(rng: Rng)
    ensures var start := State(WithDiscard([Card(10, Heart)], []),
                               Simple([Card(10, Spade), Card(3, Club), Card(2, Diamond), Card(5, Heart)]),
                               rng, 0, 0);
            var r := Turn(start);
            && r.Played?
            && r.pot == [Card(10, Heart), Card(10, Spade)]
            && !r.player1Took
            && r.warRounds == 0
            && r.state.maxDepth == 1
            && Turn(r.state) == Over(FinalResult(1, false, 1))
  {
    var start := State(WithDiscard([Card(10, Heart)], []),
                       Simple([Card(10, Spade), Card(3, Club), Card(2, Diamond), Card(5, Heart)]),
                       rng, 0, 0);
    DrawTakesFrontOfHand(start.p1, rng);
    DrawTakesFrontOfHand(start.p2, rng);
    var o := Open(start);
    assert o.p1 == WithDiscard([], []) && o.p1Card == Card(10, Heart);
    assert o.p2 == Simple([Card(3, Club), Card(2, Diamond), Card(5, Heart)]) && o.p2Card == Card(10, Spade);
    WarGuard(o.p1, o.p2, [o.p1Card, o.p2Card], 1, o.rng);
    var war := War(o.p1, o.p2, [o.p1Card, o.p2Card], 1, o.rng);
    assert war.rounds == 0 && !war.result.player1Win && war.result.depth == 1;
    var r := Turn(start);
    assert r == SettleByWar(o, 1, 0);
    assert r.state.p1 == WithDiscard([], []);
  }
}

=== FILE: players.dfy ===
/**
 The two hand-management policies behind the source's Player interface
 (src/main/kotlin/War.kt:54-88). A player is an immutable value; every
 operation returns the player as it is afterwards, together with the
 randomness left over when the operation shuffles.
 */
module Players {
  import opened Shuffling
  import opened Cards

  datatype Player =
      /** One hand, drawn from the front; winnings are shuffled onto its back. */
    | Simple(hand: seq<Card>)
      /** A hand drawn from the front and a discard pile that winnings go
          onto unshuffled; the pile is shuffled into the hand only once the
          hand runs out. */
    | WithDiscard(currentHand: seq<Card>, discard: seq<Card>)

  /** Every card the player holds, wherever it lies. */
  function Held(p: Player): multiset<Card>
  {
    match p
    case Simple(hand) => multiset(hand)
    case WithDiscard(currentHand, discard) => multiset(currentHand) + multiset(discard)
  }

  /** Both players follow the same policy. */
  predicate SamePolicy(p: Player, q: Player)
  {
    p.Simple? <==> q.Simple?
  }

  /** Whether the player holds fewer than x cards in all. */
  function HasLessThan(p: Player, x: int): (r: bool)
    ensures r <==> |Held(p)| < x
  {
    match p
    case Simple(hand) => |hand| < x
    case WithDiscard(currentHand, discard) => |currentHand| + |discard| < x
  }

  datatype Drawn = Drawn(card: Card, player: Player, rng: Rng)

  /** Takes the next card. A player with the discard policy whose hand is
      empty first turns a shuffle of the discard pile into the new hand.
      Drawing from a player who holds nothing is a fault in the source, so
      it is excluded by the precondition. */
  function Draw(p: Player, rng: Rng): (r: Drawn)
    requires !HasLessThan(p, 1)
    ensures Held(p) == Held(r.player) + multiset{r.card}
    ensures |Held(r.player)| == |Held(p)| - 1
    ensures SamePolicy(p, r.player)
  {
    match p
    case Simple(hand) =>
      SplitFront(hand);
      Drawn(hand[0], Simple(hand[1..]), rng)
    case WithDiscard(currentHand, discard) =>
      if |currentHand| > 0 then
        SplitFront(currentHand);
        Drawn(currentHand[0], WithDiscard(currentHand[1..], discard), rng)
      else
        var refill := Shuffle(discard, rng);
        SplitFront(refill.items);
        Drawn(refill.items[0], WithDiscard(refill.items[1..], []), refill.rng)
  }

  lemma SplitFront(s: seq<Card>)
    requires |s| > 0
    ensures multiset(s) == multiset(s[1..]) + multiset{s[0]}
  {
    assert s == [s[0]] + s[1..];
  }

  /** A player whose hand is not empty gives up the front card of the hand
      and nothing else changes, the randomness included. */
  lemma DrawTakesFrontOfHand(p: Player, rng: Rng)
    requires p.Simple? ==> |p.hand| > 0
    requires p.WithDiscard? ==> |p.currentHand| > 0
    ensures !HasLessThan(p, 1)
    ensures var r := Draw(p, rng);
            && r.rng == rng
            && (p.Simple? ==> r.card == p.hand[0] && r.player == Simple(p.hand[1..]))
            && (p.WithDiscard? ==>
                  r.card == p.currentHand[0] && r.player == WithDiscard(p.currentHand[1..], p.discard))
  {
  }

  /** A discard-policy player whose hand is empty still draws as long as the
      discard pile holds a card: the pile, in some order, becomes the hand,
      the pile is left empty, and the card drawn is the first of the new hand. */
  lemma DrawRefillsFromDiscard(p: Player, rng: Rng)
    requires p.WithDiscard? && |p.currentHand| == 0 && |p.discard| > 0
    ensures !HasLessThan(p, 1)
    ensures var r := Draw(p, rng);
            && r.player.WithDiscard?
            && r.player.discard == []
            && |r.player.currentHand| == |p.discard| - 1
            && multiset([r.card] + r.player.currentHand) == multiset(p.discard)
  {
  }

  datatype Absorbed = Absorbed(player: Player, rng: Rng)

  /** Takes in a batch of won cards: shuffled onto the back of the hand for
      the simple policy, appended as given to the discard pile otherwise. */
  function AddWinnings(p: Player, wins: seq<Card>, rng: Rng): (r: Absorbed)
    ensures Held(r.player) == Held(p) + multiset(wins)
    ensures SamePolicy(p, r.player)
    ensures p.Simple? ==>
              && |r.player.hand| == |p.hand| + |wins|
              && r.player.hand[..|p.hand|] == p.hand
              && multiset(r.player.hand[|p.hand|..]) == multiset(wins)
    ensures p.WithDiscard? ==>
              && r.player.currentHand == p.currentHand
              && |r.player.discard| == |p.discard| + |wins|
              && r.player.discard[..|p.discard|] == p.discard
              && r.player.discard[|p.discard|..] == wins
              && r.rng == rng
  {
    match p
    case Simple(hand) =>
      var batch := Shuffle(wins, rng);
      assert (hand + batch.items)[|hand|..] == batch.items;
      Absorbed(Simple(hand + batch.items), batch.rng)
    case WithDiscard(currentHand, discard) =>
      assert (discard + wins)[|discard|..] == wins;
      Absorbed(WithDiscard(currentHand, discard + wins), rng)
  }
}

=== FILE: shuffling.dfy ===
/**
 The game's only source of randomness is the shuffle of a batch of cards.
 Instead of a concrete random-number generator, a shuffle is driven by a
 stream of choices: each step picks, by the next choice, which of the
 remaining items comes next. Every permutation can be produced by some
 stream, so a property proved for every stream holds for every possible
 shuffle outcome.
 */
module Shuffling {

  /** A stream of random choices, consumed from the front. An exhausted
      stream reads as an endless run of zeros. */
  type Rng = seq<nat>

  datatype Shuffled<T> = Shuffled(items: seq<T>, rng: Rng)

  /** The next choice of the stream. */
  function NextChoice(rng: Rng): nat
  {
    if |rng| == 0 then 0 else rng[0]
  }

  /** The stream that remains once the next choice is taken. */
  function Rest(rng: Rng): Rng
  {
    if |rng| == 0 then [] else rng[1..]
  }

  /** Removes the item at position i. */
  function RemoveAt<T>(s: seq<T>, i: nat): (r: seq<T>)
    requires i < |s|
    ensures |r| == |s| - 1
    ensures multiset(r) + multiset{s[i]} == multiset(s)
  {
    assert s == s[..i] + [s[i]] + s[i + 1..];
    s[..i] + s[i + 1..]
  }

  /** Some permutation of s, selected by the choices of rng. */
  function Shuffle<T>(s: seq<T>, rng: Rng): (r: Shuffled<T>)
    ensures |r.items| == |s|
    ensures multiset(r.items) == multiset(s)
    decreases |s|
  {
    if |s| == 0 then Shuffled([], rng)
    else
      var i := NextChoice(rng) % |s|;
      var tail := Shuffle(RemoveAt(s, i), Rest(rng));
      Shuffled([s[i]] + tail.items, tail.rng)
  }

  /** The shuffle is unconstrained: every rearrangement of s is the outcome
      of some stream of choices. */
  lemma {:induction false} ShuffleReachesEveryPermutation<T>(s: seq<T>, p: seq<T>) returns (rng: Rng)
    requires multiset(p) == multiset(s)
    ensures Shuffle(s, rng).items == p
    ensures |rng| == |s|
    decreases |s|
  {
    assert |p| == |s| by {
      assert |multiset(p)| == |multiset(s)|;
    }
    if |s| == 0 {
      rng := [];
    } else {
      var i := FirstPermutedPosition(s, p);
      var t := RemoveAt(s, i);
      var rest := ShuffleReachesEveryPermutation(t, p[1..]);
      rng := [i] + rest;
      assert NextChoice(rng) == i;
      SmallChoiceIsKept(i, |s|);
      assert Rest(rng) == rest;
      assert Shuffle(s, rng).items == [s[i]] + Shuffle(t, rest).items;
      assert p == [p[0]] + p[1..];
    }
  }

  /** A shuffle of n items reads exactly n choices: run on a stream r of n
      choices followed by anything t, it gives the same items as on r alone
      and leaves t untouched for the next shuffle. Streams for successive
      shuffles can therefore be chosen one by one and concatenated. */
  lemma {:induction false} ShuffleUsesOneChoicePerItem<T>(s: seq<T>, r: Rng, t: Rng)
    requires |r| == |s|
    ensures Shuffle(s, r + t).rng == t
    ensures Shuffle(s, r + t).items == Shuffle(s, r).items
    decreases |s|
  {
    if |s| == 0 {
      assert r + t == t;
    } else {
      assert (r + t)[0] == r[0];
      assert Rest(r + t) == Rest(r) + t;
      var i := NextChoice(r) % |s|;
      ShuffleUsesOneChoicePerItem(RemoveAt(s, i), Rest(r), t);
    }
  }

  /** What a shuffle of n items leaves of its stream: the stream past its
      first n choices, or nothing when the stream had fewer than n. */
  lemma {:induction false} ShuffleLeavesRest<T>(s: seq<T>, rng: Rng)
    ensures Shuffle(s, rng).rng == if |s| <= |rng| then rng[|s|..] else []
    decreases |s|
  {
    if |s| == 0 {
      assert rng[0..] == rng;
    } else {
      var i := NextChoice(rng) % |s|;
      ShuffleLeavesRest(RemoveAt(s, i), Rest(rng));
      if 0 < |rng| && |s| <= |rng| {
        assert Rest(rng)[|s| - 1..] == rng[|s|..];
      }
    }
  }

  lemma SmallChoiceIsKept(i: nat, n: nat)
    requires i < n
    ensures i % n == i
  {
  }

  /** Where the first item of a rearrangement p of s sits in s; what is left
      of s without it is a rearrangement of the rest of p. */
  lemma FirstPermutedPosition<T>(s: seq<T>, p: seq<T>) returns (i: nat)
    requires multiset(p) == multiset(s)
    requires 0 < |p|
    ensures i < |s| && s[i] == p[0]
    ensures multiset(p[1..]) == multiset(RemoveAt(s, i))
  {
    assert p[0] in multiset(s);
    i :| 0 <= i < |s| && s[i] == p[0];
    assert p == [p[0]] + p[1..];
    assert multiset(p[1..]) + multiset{p[0]} == multiset(p);
    assert multiset(p[1..]) == multiset(p) - multiset{p[0]};
    assert multiset(RemoveAt(s, i)) == multiset(s) - multiset{s[i]};
  }
}

=== FILE: war.dfy ===
/**
 The recursive tie-break (src/main/kotlin/War.kt:128-155). Each round every
 player puts one card face down and one face up; this file has the rule of
 a single face-down card.
 */
module WarRules {
  import opened Shuffling
  import opened Cards
  import opened Players

  /** The cards won so far, who wins them, and how deep the chain of ties went. */
  datatype WarResult = WarResult(winnings: seq<Card>, player1Win: bool, depth: nat)

  /** A war's result together with the number of rounds played, both
      players and the randomness after it. */
  datatype WarOutcome = WarOutcome(result: WarResult, rounds: nat, p1: Player, p2: Player, rng: Rng)

  /** The four cards of one round and the players after it. */
  datatype Round = Round(p1Down: Card, p1Up: Card, p2Down: Card, p2Up: Card, p1: Player, p2: Player, rng: Rng)

  /** Whether both players can play a full round. */
  predicate CanPlayRound(p1: Player, p2: Player)
  {
    !HasLessThan(p1, 2) && !HasLessThan(p2, 2)
  }

  datatype DrawnPair = DrawnPair(down: Card, up: Card, player: Player, rng: Rng)

  /** One player's share of a round: a face-down card, then a face-up card. */
  function DrawPair(p: Player, rng: Rng): (r: DrawnPair)
    requires !HasLessThan(p, 2)
    ensures Held(p) == Held(r.player) + multiset{r.down, r.up}
    ensures |Held(r.player)| == |Held(p)| - 2
    ensures SamePolicy(p, r.player)
  {
    var down := Draw(p, rng);
    assert |Held(down.player)| >= 1;
    var up := Draw(down.player, down.rng);
    TakeTwo(Held(p), Held(down.player), Held(up.player), down.card, up.card);
    DrawnPair(down.card, up.card, up.player, up.rng)
  }

  lemma TakeTwo<T>(a: multiset<T>, b: multiset<T>, c: multiset<T>, x: T, y: T)
    requires a == b + multiset{x} && b == c + multiset{y}
    ensures a == c + multiset{x, y}
  {
  }

  /** One round: the first player draws its face-down then its face-up card,
      then the second player does the same. */
  function PlayRound(p1: Player, p2: Player, rng: Rng): (r: Round)
    requires CanPlayRound(p1, p2)
    ensures Held(p1) == Held(r.p1) + multiset{r.p1Down, r.p1Up}
    ensures Held(p2) == Held(r.p2) + multiset{r.p2Down, r.p2Up}
    ensures |Held(r.p1)| == |Held(p1)| - 2 && |Held(r.p2)| == |Held(p2)| - 2
    ensures SamePolicy(p1, r.p1) && SamePolicy(p2, r.p2)
  {
    var first := DrawPair(p1, rng);
    var second := DrawPair(p2, first.rng);
    Round(first.down, first.up, second.down, second.up, first.player, second.player, second.rng)
  }

  /** The order in which a round's cards join the pot. */
  function RoundPot(r: Round): (pot: seq<Card>)
    ensures multiset(pot) == multiset{r.p1Down, r.p1Up} + multiset{r.p2Down, r.p2Up}
  {
    [r.p1Up, r.p1Down, r.p2Up, r.p2Down]
  }

  /** A round moves cards from the players to the pot and nowhere else. */
  lemma RoundConserves(p1: Player, p2: Player, winnings: seq<Card>, round: Round)
    requires Held(p1) == Held(round.p1) + multiset{round.p1Down, round.p1Up}
    requires Held(p2) == Held(round.p2) + multiset{round.p2Down, round.p2Up}
    ensures Held(p1) + Held(p2) + multiset(winnings)
            == Held(round.p1) + Held(round.p2) + multiset(winnings + RoundPot(round))
  {
    var pot := RoundPot(round);
    assert multiset(winnings + pot) == multiset(winnings) + multiset(pot);
    MoveToPot(Held(p1), Held(round.p1), multiset{round.p1Down, round.p1Up},
              Held(p2), Held(round.p2), multiset{round.p2Down, round.p2Up},
              multiset(winnings), multiset(winnings + pot));
  }

  /** Cards that leave two holdings for a pot are all found in the pot. */
  lemma MoveToPot<T>(a: multiset<T>, a': multiset<T>, x: multiset<T>,
                     b: multiset<T>, b': multiset<T>, y: multiset<T>,
                     w: multiset<T>, w': multiset<T>)
    requires a == a' + x && b == b' + y && w' == w + x + y
    ensures a + b + w == a' + b' + w'
  {
  }

  lemma PrefixTransitive(a: seq<Card>, b: seq<Card>, c: seq<Card>)
    requires a <= b && b <= c
    ensures a <= c
  {
    assert c[..|a|] == b[..|a|];
  }

  /** Resolves a tie. A player unable to play a full round loses at once,
      the second player checked first; otherwise a round is played and the
      higher face-up card takes the pot, a further tie going one level deeper. */
  function War(p1: Player, p2: Player, winnings: seq<Card>, depth: nat, rng: Rng): (r: WarOutcome)
    decreases |Held(p1)| + |Held(p2)|
    ensures WarAccounts(p1, p2, winnings, depth, r)
  {
    if !CanPlayRound(p1, p2) then
      // the second player is checked first: it loses whenever it is short
      GuardAccounts(p1, p2, winnings, depth, rng);
      WarOutcome(WarResult(winnings, HasLessThan(p2, 2), depth), 0, p1, p2, rng)
    else
      var round := PlayRound(p1, p2, rng);
      var pot := winnings + RoundPot(round);
      if round.p1Up.rank != round.p2Up.rank then
        DecidedAccounts(p1, p2, winnings, depth, round);
        WarOutcome(WarResult(pot, round.p1Up.rank > round.p2Up.rank, depth), 1, round.p1, round.p2, round.rng)
      else
        var r := War(round.p1, round.p2, pot, depth + 1, round.rng);
        TieAccounts(p1, p2, winnings, depth, round, r);
        WarOutcome(r.result, r.rounds + 1, r.p1, r.p2, r.rng)
  }

  /** What a war started from p1, p2, the pot winnings and the given depth
      promises of its outcome r. */
  ghost predicate WarAccounts(p1: Player, p2: Player, winnings: seq<Card>, depth: nat, r: WarOutcome)
  {
    // no card is created or lost
    && Held(p1) + Held(p2) + multiset(winnings) == Held(r.p1) + Held(r.p2) + multiset(r.result.winnings)
    && SamePolicy(p1, r.p1) && SamePolicy(p2, r.p2)
    // the pot only grows at its end, four cards a round, two from each player
    && |r.result.winnings| == |winnings| + 4 * r.rounds
    && winnings <= r.result.winnings
    && |Held(r.p1)| == |Held(p1)| - 2 * r.rounds
    && |Held(r.p2)| == |Held(p2)| - 2 * r.rounds
    // every round but the last was a tie; a war decided by a higher card
    // stops at the depth of its last round, one stopped by a guard one deeper
    && (r.result.depth == depth + r.rounds || (r.rounds > 0 && r.result.depth == depth + r.rounds - 1))
    // which of the two endings it was, and who won
    && EndsAsPlayed(depth, r)
    // every round before the deciding one was a tie
    && EarlierRoundsTied(|winnings|, depth, r)
  }

  /** The k rounds whose cards the pot w holds from position start on were
      all ties: in each block of four, the first and third cards (the two
      face-up cards) have the same rank. */
  predicate TiedFrom(w: seq<Card>, start: nat, k: nat)
    decreases k
  {
    || k == 0
    || (&& start + 4 <= |w|
        && w[start].rank == w[start + 2].rank
        && TiedFrom(w, start + 4, k - 1))
  }

  /** The rounds of a war whose cards were added to the pot from position
      start on were ties, all of them when a guard stopped the war and all
      but the last when a round decided it. */
  predicate EarlierRoundsTied(start: nat, depth: nat, r: WarOutcome)
  {
    if r.result.depth == depth + r.rounds then TiedFrom(r.result.winnings, start, r.rounds)
    else r.rounds > 0 && TiedFrom(r.result.winnings, start, r.rounds - 1)
  }

  /** A tied round in front of the rounds of a deeper war: the rounds
      before the deciding one are still all ties. */
  lemma TiedBefore(start: nat, depth: nat, pot: seq<Card>, r: WarOutcome)
    requires |pot| == start + 4 && pot[start].rank == pot[start + 2].rank
    requires pot <= r.result.winnings
    requires EarlierRoundsTied(|pot|, depth + 1, r)
    ensures EarlierRoundsTied(start, depth, WarOutcome(r.result, r.rounds + 1, r.p1, r.p2, r.rng))
  {
    assert r.result.winnings[start] == pot[start] && r.result.winnings[start + 2] == pot[start + 2];
  }

  /** Reads TiedFrom round by round: the j-th of the k tied rounds has
      face-up cards of equal rank. */
  lemma {:induction false} TiedRoundAt(w: seq<Card>, start: nat, k: nat, j: nat)
    requires TiedFrom(w, start, k) && j < k
    ensures start + 4 * j + 4 <= |w|
    ensures w[start + 4 * j].rank == w[start + 4 * j + 2].rank
    decreases k
  {
    if j > 0 {
      TiedRoundAt(w, start + 4, k - 1, j - 1);
    }
  }

  /** How a war ends. One that returns the depth of its first round plus
      the number of rounds played was stopped by a guard: afterwards either
      player is short of two cards, the first player wins exactly when the
      second is short, and the last round it played, if any, was a tie.
      Any other war was decided by its last round, whose face-up cards are
      the first and third of the pot's last four: their ranks differ and
      the higher one wins. */
  predicate EndsAsPlayed(depth: nat, r: WarOutcome)
  {
    var w := r.result.winnings;
    && (r.result.depth == depth + r.rounds ==>
          && !CanPlayRound(r.p1, r.p2)
          && (r.result.player1Win <==> HasLessThan(r.p2, 2))
          && (r.rounds > 0 && |w| >= 4 ==> w[|w| - 4].rank == w[|w| - 2].rank))
    && (r.result.depth != depth + r.rounds ==>
          && r.rounds > 0
          && |w| >= 4
          && w[|w| - 4].rank != w[|w| - 2].rank
          && (r.result.player1Win <==> w[|w| - 4].rank > w[|w| - 2].rank))
  }

  /** The guard branch of a war keeps its promises. */
  lemma GuardAccounts(p1: Player, p2: Player, winnings: seq<Card>, depth: nat, rng: Rng)
    requires !CanPlayRound(p1, p2)
    ensures WarAccounts(p1, p2, winnings, depth, WarOutcome(WarResult(winnings, HasLessThan(p2, 2), depth), 0, p1, p2, rng))
  {
  }

  /** The face-up cards of a round sit first and third among the pot's last four. */
  lemma RoundFaces(winnings: seq<Card>, round: Round)
    ensures var pot := winnings + RoundPot(round);
            pot[|pot| - 4] == round.p1Up && pot[|pot| - 2] == round.p2Up
  {
  }

  /** A round whose face-up ranks differ ends the war and keeps its promises. */
  lemma DecidedAccounts(p1: Player, p2: Player, winnings: seq<Card>, depth: nat, round: Round)
    requires Held(p1) == Held(round.p1) + multiset{round.p1Down, round.p1Up}
    requires Held(p2) == Held(round.p2) + multiset{round.p2Down, round.p2Up}
    requires |Held(round.p1)| == |Held(p1)| - 2 && |Held(round.p2)| == |Held(p2)| - 2
    requires SamePolicy(p1, round.p1) && SamePolicy(p2, round.p2)
    requires round.p1Up.rank != round.p2Up.rank
    ensures var pot := winnings + RoundPot(round);
            WarAccounts(p1, p2, winnings, depth,
                        WarOutcome(WarResult(pot, round.p1Up.rank > round.p2Up.rank, depth), 1, round.p1, round.p2, round.rng))
  {
    RoundConserves(p1, p2, winnings, round);
    RoundFaces(winnings, round);
  }

  /** A tied round followed by a war one level deeper keeps the promises of
      the war as a whole. */
  lemma TieAccounts(p1: Player, p2: Player, winnings: seq<Card>, depth: nat, round: Round, r: WarOutcome)
    requires Held(p1) == Held(round.p1) + multiset{round.p1Down, round.p1Up}
    requires Held(p2) == Held(round.p2) + multiset{round.p2Down, round.p2Up}
    requires |Held(round.p1)| == |Held(p1)| - 2 && |Held(round.p2)| == |Held(p2)| - 2
    requires SamePolicy(p1, round.p1) && SamePolicy(p2, round.p2)
    requires round.p1Up.rank == round.p2Up.rank
    requires WarAccounts(round.p1, round.p2, winnings + RoundPot(round), depth + 1, r)
    ensures WarAccounts(p1, p2, winnings, depth, WarOutcome(r.result, r.rounds + 1, r.p1, r.p2, r.rng))
  {
    var pot := winnings + RoundPot(round);
    RoundConserves(p1, p2, winnings, round);
    RoundFaces(winnings, round);
    PrefixTransitive(winnings, pot, r.result.winnings);
    TieEnds(depth, pot, r);
    TiedBefore(|winnings|, depth, pot, r);
  }

  /** A war that goes on after a tied round, whose face-up cards close the
      pot, ends the way the deeper war ends. */
  lemma TieEnds(depth: nat, pot: seq<Card>, r: WarOutcome)
    requires |pot| >= 4 && pot[|pot| - 4].rank == pot[|pot| - 2].rank
    requires pot <= r.result.winnings && |r.result.winnings| == |pot| + 4 * r.rounds
    requires EndsAsPlayed(depth + 1, r)
    ensures EndsAsPlayed(depth, WarOutcome(r.result, r.rounds + 1, r.p1, r.p2, r.rng))
  {
    if r.rounds == 0 {
      assert r.result.winnings == pot;
    }
  }

  /** Only a tie leads to another round: the j-th round of a war, counted
      from 0, was a tie whenever it is not the round that decided the war,
      that is whenever a guard stopped the war or a later round was played.
      Its face-up cards sit at positions 4j and 4j + 2 past the pot the war
      started with. */
  lemma WarTiesBeforeLast(p1: Player, p2: Player, winnings: seq<Card>, depth: nat, rng: Rng, j: nat)
    requires var r := War(p1, p2, winnings, depth, rng);
             j + 1 < r.rounds || (j < r.rounds && r.result.depth == depth + r.rounds)
    ensures var w := War(p1, p2, winnings, depth, rng).result.winnings;
            && |winnings| + 4 * j + 4 <= |w|
            && w[|winnings| + 4 * j].rank == w[|winnings| + 4 * j + 2].rank
  {
    RoundTiedUnlessLast(|winnings|, depth, War(p1, p2, winnings, depth, rng), j);
  }

  /** The same for any outcome whose earlier rounds are known to be tied. */
  lemma RoundTiedUnlessLast(start: nat, depth: nat, r: WarOutcome, j: nat)
    requires EarlierRoundsTied(start, depth, r)
    requires j + 1 < r.rounds || (j < r.rounds && r.result.depth == depth + r.rounds)
    ensures start + 4 * j + 4 <= |r.result.winnings|
    ensures r.result.winnings[start + 4 * j].rank == r.result.winnings[start + 4 * j + 2].rank
  {
    if r.result.depth == depth + r.rounds {
      TiedRoundAt(r.result.winnings, start, r.rounds, j);
    } else {
      TiedRoundAt(r.result.winnings, start, r.rounds - 1, j);
    }
  }

  /** A war that finds either player short of two cards draws nothing: the
      pot comes back as it was, at the same depth, and the first player wins
      exactly when the second is the short one. Otherwise a round is played. */
  lemma WarGuard(p1: Player, p2: Player, winnings: seq<Card>, depth: nat, rng: Rng)
    ensures var r := War(p1, p2, winnings, depth, rng);
            && (r.rounds == 0 <==> HasLessThan(p1, 2) || HasLessThan(p2, 2))
            && (r.rounds == 0 ==>
                  && r.result.winnings == winnings
                  && r.result.depth == depth
                  && r.p1 == p1 && r.p2 == p2
                  && (r.result.player1Win <==> HasLessThan(p2, 2)))
  {
    if CanPlayRound(p1, p2) {
      var round := PlayRound(p1, p2, rng);
      if round.p1Up.rank == round.p2Up.rank {
        var deeper := War(round.p1, round.p2, winnings + RoundPot(round), depth + 1, round.rng);
        assert War(p1, p2, winnings, depth, rng).rounds == deeper.rounds + 1;
      }
    }
  }

  /** A round adds its four cards to the pot in the order first player's
      face-up, first player's face-down, second player's face-up, second
      player's face-down. */
  lemma WarRoundOrder(p1: Player, p2: Player, winnings: seq<Card>, depth: nat, rng: Rng)
    requires CanPlayRound(p1, p2)
    ensures var round := PlayRound(p1, p2, rng);
            var r := War(p1, p2, winnings, depth, rng);
            winnings + [round.p1Up, round.p1Down, round.p2Up, round.p2Down] <= r.result.winnings
  {
    var round := PlayRound(p1, p2, rng);
    if round.p1Up.rank == round.p2Up.rank {
      var deeper := War(round.p1, round.p2, winnings + RoundPot(round), depth + 1, round.rng);
      assert War(p1, p2, winnings, depth, rng).result == deeper.result;
    }
  }

  /** Different face-up ranks end the war after this round, at this depth,
      in favour of the higher card. */
  lemma WarRoundDecides(p1: Player, p2: Player, winnings: seq<Card>, depth: nat, rng: Rng)
    requires CanPlayRound(p1, p2)
    requires PlayRound(p1, p2, rng).p1Up.rank != PlayRound(p1, p2, rng).p2Up.rank
    ensures var round := PlayRound(p1, p2, rng);
            var r := War(p1, p2, winnings, depth, rng);
            && r.rounds == 1
            && r.result.depth == depth
            && (r.result.player1Win <==> round.p1Up.rank > round.p2Up.rank)
  {
  }

  /** Equal face-up ranks take the war at least one level deeper. */
  lemma WarRoundTies(p1: Player, p2: Player, winnings: seq<Card>, depth: nat, rng: Rng)
    requires CanPlayRound(p1, p2)
    requires PlayRound(p1, p2, rng).p1Up.rank == PlayRound(p1, p2, rng).p2Up.rank
    ensures War(p1, p2, winnings, depth, rng).result.depth > depth
  {
    var round := PlayRound(p1, p2, rng);
    var deeper := War(round.p1, round.p2, winnings + RoundPot(round), depth + 1, round.rng);
    assert War(p1, p2, winnings, depth, rng).result == deeper.result;
  }

  /** In the game the first player keeps a discard pile and the second
      plays a simple hand. While the first player's hand holds two cards the
      round order is concrete: each player's first card goes face down and
      its second face up, so the pot receives the second and first cards of
      the first player's hand, then of the second player's hand. */
  lemma GameRoundOrder(hand1: seq<Card>, discard1: seq<Card>, hand2: seq<Card>, winnings: seq<Card>, depth: nat, rng: Rng)
    requires |hand1| >= 2 && |hand2| >= 2
    ensures var r := War(WithDiscard(hand1, discard1), Simple(hand2), winnings, depth, rng);
            winnings + [hand1[1], hand1[0], hand2[1], hand2[0]] <= r.result.winnings
  {
    WarRoundOrder(WithDiscard(hand1, discard1), Simple(hand2), winnings, depth, rng);
    DrawTakesFrontOfHand(WithDiscard(hand1, discard1), rng);
    DrawTakesFrontOfHand(WithDiscard(hand1[1..], discard1), rng);
    DrawTakesFrontOfHand(Simple(hand2), rng);
    DrawTakesFrontOfHand(Simple(hand2[1..]), rng);
  }
}
